=== FILE: README.md ===
# Cartões Mágicos battle engine in Dafny

This project models the battle screen of the Cartões Mágicos card game
(`cartoes-magicos/game.js`) with the page, the timers and the rendering
taken out. What is left is a small sequential state machine. Its state is:

- the turn (`player`, `opponent` or `ended`);
- the two life totals (player 25, opponent 20 at the start);
- the card each side has on the table (`lastPlayed`);
- the selected attribute;
- the two decks of catalog keys;
- the two hands.

The state changes on the handlers' events: a draw-button click, a card
dropped on a slot (followed by the attribute dialog), the delayed opponent
move, the end-turn button and the reset.

Modules, leaves first:

- `Wrappers` (wrappers.dfy): `Option`, standing for the source's `null`.
- `Attributes` (stats.dfy): the canonical `{fe, coragem, influencia}` record.
  It holds normalization of catalog stat objects, legacy keys included, the
  duel score, and the opponent's choice of its best attribute.
- `CardData` (carddata.dfy): catalog entries, and the title and stats of a
  drawn card.
- `Deck` (deck.dfy): deck construction from the page order, the catalog
  keys and the default library. Decks are capped at 10 and drawn from the
  end.
- `Battle` (battle.dfy): the state, drawing, the drop guards, the attribute
  dialog, `playCardToSlot`, duel resolution with its cleanup, end-turn and
  reset.
- `Opponent` (opponent.dfy): the opponent's move. It picks the first card
  with the best score, then overwrites the selected attribute with that
  card's best stat.
- `Game` (game.dfy): all events as one `Step`, runs of events, the invariant
  every reachable state keeps, and worked duels.

Timers become separate events or are folded in:

- The cleanup that `resolveBattle` schedules is applied in the same step as
  the duel.
- The delayed `opponentPlay` is its own event, `OpponentTimer`. The model
  lets it fire at any time between other events.
- Every handler runs to completion in one step, its own delayed parts
  included. Five windows in which the source lets other events in are
  therefore not modelled; each is listed under "Left out":
  - the 900 ms cleanup after a duel;
  - the 120 ms before the starter draws of a reset;
  - the 400 ms between the opponent's empty-hand draw and its play;
  - a catalog load still in flight;
  - the open attribute dialog, while the dropped card sits in the player's
    slot and outside the hand.
- The 5-card limit on the player's hand is proved only under this
  scheduling. In the source the hand can pass 5 in two of these windows:
  through clicks in the 120 ms starter-draw window, and through a draw while
  the attribute dialog is open followed by a cancel.
- The attribute dialog is an input of the drop event: `Choose(attr)` or
  `Cancel`.

Behaviour of game.js worth noting:

- An ended game is not terminal. End-turn maps every turn other than
  `player`, `ended` included, to `player`. Drawing checks no turn at all.
  (`Game.EndedIsNotTerminal`)
- A deck key without a catalog record still yields a card. The card is
  titled by its key (or "Carta" when the key is empty) and has 40 on every
  stat (`Battle.NewCard`, `Battle.DrawCard`).
- The opponent's move overwrites the attribute the player chose before the
  duel is resolved. The duel therefore compares the opponent's best
  attribute (`Opponent.OpponentPlay`, `Game.OpponentAttributeDecides`). The
  exception is the empty-hand branch, which does not touch the attribute.
- A player card dropped on the opponent's slot outside the player's turn is
  played as the opponent's card.

## Model

| member | source | states |
|---|---|---|
| `Attributes.Normalize` | cartoes-magicos/game.js:45-55 | No stats object gives 40/40/40. With any current key present, each stat is its current field or 40. Otherwise each stat is its legacy field (magia, forca, agilidade) or 40. No stat is ever 0. |
| `Attributes.NormalizeIdempotent` | cartoes-magicos/game.js:45-57 | Normalizing the stored canonical record again gives the same record. |
| `Attributes.LegacyKeysRenamed` | cartoes-magicos/game.js:49-54 | A legacy-only stats object normalizes like the same object with magia, forca, agilidade renamed to fe, coragem, influencia. |
| `Attributes.CurrentKeysShadowLegacy` | cartoes-magicos/game.js:48 | Once one current key is present, adding legacy fields changes nothing. |
| `Attributes.NormalizeRange` | cartoes-magicos/game.js:45-55 | Catalog stats in [0, 100] normalize into [1, 100]. |
| `Attributes.BestAttr` | cartoes-magicos/game.js:391 | The declared attribute has the largest stat. On ties it comes first in the order fe, coragem, influencia, as with a stable descending sort. |
| `CardData.CardTitle` | cartoes-magicos/game.js:195 | The title is never empty. It is the record's name when non-empty, else its title when non-empty, else the key; a missing record gives the key. When all three are empty the card is titled "Carta" (game.js:43). |
| `CardData.CardStats` | cartoes-magicos/game.js:194-198 | A missing record or stats object gives 40 on every attribute. Otherwise the stats are the normalized catalog stats. |
| `Deck.KeepIn` | cartoes-magicos/game.js:429 | The filter keeps exactly the elements that are allowed, and it keeps distinct lists distinct. |
| `Deck.KeepInAppend` | cartoes-magicos/game.js:424 | Filtering distributes over concatenation, so kept keys keep their relative order. |
| `Deck.KeepInAll` | cartoes-magicos/game.js:424 | Filtering a list whose every element passes returns that list unchanged. |
| `Deck.Usable` | cartoes-magicos/game.js:421-425 | The usable list is never empty. Without a catalog it is the default library. With a catalog, it is the catalog keys that have a record, in key order, unless none has one; then it is the default library. |
| `Deck.WellFormedCatalogUsedWhole` | cartoes-magicos/game.js:421-424 | A non-empty catalog with a record for each of its keys is used whole, in its own key order. |
| `Deck.FinalList` | cartoes-magicos/game.js:429-431 | The final list is non-empty and drawn from the usable keys. When any usable key is on the page order, it is the page order filtered to the usable keys (same elements, page order kept). Otherwise it is the usable list as it is. |
| `Deck.FullCatalogDrawsPageOrder` | cartoes-magicos/game.js:421-434 | With a record for every page key, the final list is the page order and ten successive pops return exactly the page order. |
| `Deck.BuildDeck` | cartoes-magicos/game.js:433-434 | A deck has between 1 and 10 keys, all from the final list. Successive pops return the final list's first ten keys front to back. |
| `Deck.DeckKeysKnown` | cartoes-magicos/game.js:421-434 | If the catalog has any key with a record, every deck key has a record. |
| `Deck.DeckHasNoDups` | cartoes-magicos/game.js:421-434 | A deck never holds a key twice when the catalog keys are distinct. |
| `Battle.NewCard` | cartoes-magicos/game.js:194-199 | A drawn card has the drawn key and the drawing side as owner. Its title is CardTitle of the key's record and its stats are CardStats of that record. So the title is never empty and no stat is zero, and a key with no record gives a card titled by its key (or "Carta") with every stat 40. |
| `Battle.DrawCard` | cartoes-magicos/game.js:184-207 | No catalog or an empty deck gives no card and no change. Otherwise the deck loses exactly its last key, and the card made for that key, owned by the drawing side, is appended to that side's hand. Nothing else changes. |
| `Battle.DrawClick` | cartoes-magicos/game.js:209-217 | A player draw with 5 or more cards in hand changes nothing. Every other click draws for that side exactly as DrawCard does. A hand of at most 5 stays at most 5. Only decks and hands change. |
| `Battle.DuelOutcome` | cartoes-magicos/game.js:305-321 | The player wins iff its score (selected attribute, or stat sum when none) is strictly greater. The opponent wins iff its score is strictly greater. Equal scores tie. |
| `Battle.DuelIsFair` | cartoes-magicos/game.js:305-321 | Swapping the two cards swaps the winner and keeps a tie a tie. |
| `Battle.ApplyOutcome` | cartoes-magicos/game.js:323-336 | The loser loses exactly 3 life. A tie changes nothing. No life rises. |
| `Battle.Winner` | cartoes-magicos/game.js:364-366 | There is a winner iff a life is at or below 0. The opponent wins exactly when the player's life is at or below 0, which is checked first. |
| `Battle.Cleanup` | cartoes-magicos/game.js:350-373 | Both played cards are cleared. At game end the turn is `ended` and the attribute is kept. Otherwise the attribute is cleared and the player moves next. Life, decks and hands are untouched. |
| `Battle.ResolveBattle` | cartoes-magicos/game.js:300-374 | With a slot empty nothing changes. Otherwise life follows the duel outcome and both slots are cleared. The turn is `ended` iff a life is at or below 0, and the selected attribute is then kept. Otherwise it is the player's turn with no attribute. |
| `Battle.PlayCardToSlot` | cartoes-magicos/game.js:280-298 | If the other side has a card on the table, the duel between the two cards resolves. Life follows the duel outcome on the selected attribute and both slots end empty. The turn is `ended` iff a life is at or below 0, keeping the attribute; otherwise it is the player's turn with no attribute. Otherwise the card is recorded for its side, and only a player card passes the turn to the opponent. |
| `Battle.CancelDrop` | cartoes-magicos/game.js:269-272 | A cancelled dialog leaves the turn, the played cards, the attribute and life unchanged. The dragged card leaves its place and is appended to the player's hand. Every other card stays where it was, in order, and a card from the player's hand leaves the opponent's hand untouched. |
| `Battle.ChooseDrop` | cartoes-magicos/game.js:263-268 | Choosing an attribute selects it, makes the dragged card the player's played card and gives the turn to the opponent. The dragged card leaves its hand, the rest of that hand is kept as a multiset, and the other hand is unchanged. |
| `Battle.DropOnOpponentSlot` | cartoes-magicos/game.js:275 | When the player has no card on the table, a player card dropped on the opponent's slot becomes the opponent's played card, and life, turn and attribute are unchanged. When the player has a card there, the two duel: life follows the outcome, both slots are cleared, and the turn is `ended` iff a life is at or below 0, else the player's with no attribute; at game end the attribute is kept. The dragged card leaves its hand, the rest is kept, and the other hand is unchanged. |
| `Battle.Refused` | cartoes-magicos/game.js:248-255 | A drop is accepted exactly when a card is dragged, the player owns it, and the target is the player's slot iff it is the player's turn. |
| `Battle.Drop` | cartoes-magicos/game.js:246-276 | Refused drops change nothing. A cancelled dialog leaves the table, turn, attribute and life as they were. The dragged card is appended to the player's hand and every other card stays in place, in order. A chosen attribute selects it, plays the card for the player and hands the turn over. A drop on the opponent's slot plays the card for the opponent. With the player's slot empty the turn and attribute stay as they were. Otherwise the duel resolves, with the same outcome, turn and attribute as in PlayCardToSlot, the attribute kept at game end. Except for a cancel, the dragged card leaves its hand and the rest is kept. Hand ownership is kept. |
| `Battle.OpponentCardsNeverDropped` | cartoes-magicos/game.js:251 | While each hand holds only its own cards, dragging an opponent card changes nothing, whatever the slot or dialog answer. |
| `Battle.EndTurn` | cartoes-magicos/game.js:407 | Only the turn changes. It always changes, and never to `ended`. |
| `Battle.EndTurnTwice` | cartoes-magicos/game.js:407 | During play, two end-turn presses restore the state. |
| `Battle.DrawTwo` | cartoes-magicos/game.js:439-440 | Two draws into an empty hand take the first two pops of that side's deck, or one when the deck holds one key. Each card is the one built from its key's catalog record for that side. The deck shrinks by that many. The other side is untouched. |
| `Battle.StarterHands` | cartoes-magicos/game.js:438-441 | Each side's starter hand holds the first pops of its own deck, each card built from its key's catalog record for that side. Without a catalog nothing changes. |
| `Battle.Reset` | cartoes-magicos/game.js:410-443 | A reset gives life 25 and 20, the player's turn, no played cards and no attribute. Decks hold at most 10 keys and hands hold only their own side's cards. Without a catalog, hands are empty and decks are full. |
| `Battle.StarterHandsInPageOrder` | cartoes-magicos/game.js:427-441 | With a catalog, each starter hand holds the first keys of the ordered list, and each deck lost exactly those keys from its end. |
| `Battle.FullCatalogStarterHands` | cartoes-magicos/game.js:421-441 | With a record for every page key, each side starts with "pedro" then "mateus" in hand and eight keys in its deck. |
| `Opponent.Scan` | cartoes-magicos/game.js:384 | The scan that starts at -1 and replaces only on a strictly greater value ends at the first maximal position, provided some value exceeds -1. |
| `Opponent.PolicyIndex` | cartoes-magicos/game.js:381-388 | The opponent's chosen card is the first card maximizing the selected attribute, or the stat sum when none is selected. If every score is at or below -1, it is the first card. |
| `Opponent.PolicyPicksFirstMax` | cartoes-magicos/game.js:381-388 | With non-negative stats, the chosen card is always a first maximum. |
| `Opponent.OpponentPlay` | cartoes-magicos/game.js:376-400 | With cards in hand, the chosen card leaves the opponent's hand, the player's hand and both decks are untouched, and the attribute becomes that card's best stat. A duel that follows compares on that attribute and ends in `ended` iff a life is at or below 0, keeping that attribute, else the player's turn with no attribute. With an empty hand, a player-side draw button does exactly what that button's click does and leaves the table as it was. An opponent-side button with nothing to draw changes nothing. Otherwise the drawn card (NewCard of the deck's last key) is played on the unchanged attribute, with the player's hand and deck untouched. It becomes the opponent's played card when the player has none down, or else fights a duel with the same turn outcome, keeping the unchanged attribute at game end. |
| `Opponent.PlayerAttributeOnlyPicksCard` | cartoes-magicos/game.js:383-392 | Two player attributes that make the opponent pick the same card give the same result. |
| `Game.Step` | cartoes-magicos/game.js:209-443 | A reset event is a reset. Every other event changes life by at most one hit and never grows a deck. No event puts a card in the other side's hand, and while that holds no event takes the player past 5 cards. |
| `Game.ResetEstablishesInv` | cartoes-magicos/game.js:410-443 | A reset state satisfies the invariant. |
| `Game.ReachableStatesKeepInv` | cartoes-magicos/game.js:410-443 | Every state reached by any events after a reset satisfies the invariant. |
| `Game.StepPreservesInv` | cartoes-magicos/game.js:209-443 | Each event keeps the invariant. Decks hold at most 10 keys and the player's hand at most 5. Each hand holds only its own side's cards. Each life is its start minus whole hits of 3. |
| `Game.RunPreservesInv` | cartoes-magicos/game.js:209-443 | Every run of events from a valid state keeps the invariant. |
| `Game.StepLife` | cartoes-magicos/game.js:323-336 | An event other than a reset changes life by at most one hit of 3 on one side. |
| `Game.LifeNeverRises` | cartoes-magicos/game.js:325-331 | With no reset, neither life rises over any run, and each falls by a multiple of 3. |
| `Game.EndedIsNotTerminal` | cartoes-magicos/game.js:407 | From `ended`, end-turn gives the player's turn, and an opponent draw still adds a card. |
| `Game.FaithDuelWon` | cartoes-magicos/game.js:300-336 | Faith 80 against the opponent's faith-30 card leaves life 25 and 17, with the player to move. |
| `Game.OpponentAttributeDecides` | cartoes-magicos/game.js:391 | The player chooses faith with faith 80. The opponent's card has faith 30 and courage 90, so it declares courage and the player loses 3. |
| `Game.TieChangesNoLife` | cartoes-magicos/game.js:334-336 | Equal faith changes no life and clears both slots. |
| `Game.LastHitEndsGame` | cartoes-magicos/game.js:364-368 | The opponent at 3 life losing a duel ends the game, and the player is the winner. |

## Left out

- Rendering: card DOM construction, tooltips, toasts, turn indicator text, life animation and the damage burst. These are presentation with no effect on the state.
- Loading the catalog (`fetch` of `cards_data.json`). The catalog is an input, and a failed load is `None`.
- The timer delays. The cleanup after a duel is folded into the duel step. The delayed opponent move is an event that may fire at any time between other events.
- The 900 ms cleanup window after a duel (game.js:350). In the source both played cards stay in `lastPlayed` until the cleanup timer fires. A drop on the opponent's slot inside that window (game.js:255, 275, 290-291) would fight a second duel against the same player card. The model clears both slots in the duel's own step, so this interleaving is not modelled.
- The 120 ms delay before the starter draws (game.js:438-441). A reset empties both hands at once (game.js:412) and draws the starter hands 120 ms later, and `drawCard` itself has no hand limit. Player draw clicks inside that window each pass the 5-card check (game.js:214), so five clicks followed by the two starter draws leave the player with 7 cards. The model draws the starter hands in the reset's own step. `Game.ReachableStatesKeepInv` and `Game.StepPreservesInv` therefore prove the 5-card bound only for this scheduling.
- The 400 ms delay between the opponent's empty-hand draw and its play (game.js:396-398). The model plays the drawn card in the same step as the draw. A drop or draw inside that window, or a second opponent move, is not modelled.
- The open attribute dialog (game.js:257-272). While the dialog is open, the dropped card sits in the player's slot and not in the hand, and any event can run. One sequence that leaves the player with 6 cards:
  - End-turn is pressed twice, so an opponent move is scheduled (game.js:407) while the turn is the player's again.
  - The player drops a card from a full hand of 5 on the player's slot.
  - The opponent move fires with an empty opponent hand, and the page's first draw button is the player's (game.js:395). The 5-card check at game.js:214 sees 4 cards, so a card is drawn.
  - The dialog is cancelled, and the card goes back to the hand (game.js:271).

  The model takes the dialog's answer as part of the drop event. `Game.ReachableStatesKeepInv` and `Game.StepPreservesInv` therefore do not cover this interleaving.
- The retried catalog load (game.js:173-182). A failed load leaves the cache empty, so every later draw or reset fetches again and may see a different catalog. The model takes one catalog per run.
- The socket hook. The socket is always `null`, so it never runs.
- Deck-name display, the `?card=` parameter, navigation buttons and the `T` key. The `T` key rewrites only indicator text.
- The `neutral` slot owner. Which slots the page has is decided by the page, not the code.
- Dragging a card that is already on a slot. Drops take their card from a hand.
- The `highlight` of the compared attribute row. It is presentation only.
- `Opponent.OpponentPlay`: which draw button comes first on the page is an input, `firstDrawButton`.
- `Attributes.Normalize`: stat values are integers. `NaN`, `null`, strings and fractions in a catalog are not modelled.

=== FILE: battle.dfy ===
/** The battle state machine of the game screen: drawing, dropping a card
    on a slot, the attribute choice, duel resolution with its cleanup, the
    end-turn toggle and the reset. Rendering, toasts, animation and timer
    delays are not modelled; each handler is one pure transition. */
module Battle {
  import opened Wrappers
  import opened Attributes
  import opened CardData
  import opened Deck

  datatype Side = Player | Opponent

  datatype Turn = PlayerTurn | OpponentTurn | Ended

  /** A value per side, like the game's `{player: …, opponent: …}` objects. */
  datatype PerSide<T> = PerSide(player: T, opponent: T) {
    function Get(side: Side): T {
      match side
      case Player => player
      case Opponent => opponent
    }

    function Set(side: Side, v: T): PerSide<T> {
      match side
      case Player => this.(player := v)
      case Opponent => this.(opponent := v)
    }
  }

  /** A card on the table: the deck key it was drawn from, its title, its
      normalized stats and the side that drew it. */
  datatype Card = Card(key: string, title: string, stats: Stats, owner: Side)

  /** The game state: the source's `state` object together with the two
      decks and the two hands (held in the page in the source). */
  datatype State = State(
    turn: Turn,
    life: PerSide<int>,
    lastPlayed: PerSide<Option<Card>>,
    selected: Option<Attr>,
    decks: PerSide<seq<string>>,
    hands: PerSide<seq<Card>>)

  const PlayerStartLife: int := 25
  const OpponentStartLife: int := 20
  const Damage: int := 3
  /** The player may not draw while holding this many cards. */
  const HandLimit: nat := 5
  /** Cards each side draws when a game starts. */
  const StarterHand: nat := 2

  function RemoveAt<T>(xs: seq<T>, i: nat): seq<T>
    requires i < |xs|
  {
    xs[..i] + xs[i + 1..]
  }

  lemma RemoveAtMultiset<T>(xs: seq<T>, i: nat)
    requires i < |xs|
    ensures multiset(RemoveAt(xs, i)) + multiset{xs[i]} == multiset(xs)
  {
    assert xs == xs[..i] + [xs[i]] + xs[i + 1..];
  }

  /** Taking a card out of a hand keeps the hand to its owner's cards. */
  lemma RemoveKeepsOwner(hand: seq<Card>, i: nat, side: Side)
    requires i < |hand|
    ensures (forall c :: c in hand ==> c.owner == side) ==>
              forall c :: c in RemoveAt(hand, i) ==> c.owner == side
  {
    RemoveAtMultiset(hand, i);
    assert forall x :: x in multiset(RemoveAt(hand, i)) ==> x in multiset(hand);
  }

  /** Life moved by at most one duel: unchanged, or exactly one side down
      by exactly the damage. */
  predicate LifeStep(before: PerSide<int>, after: PerSide<int>) {
    || after == before
    || after == before.(player := before.player - Damage)
    || after == before.(opponent := before.opponent - Damage)
  }

  /** Every card in a hand belongs to that hand's side. */
  predicate HandsOwned(s: State) {
    && (forall c :: c in s.hands.player ==> c.owner == Player)
    && (forall c :: c in s.hands.opponent ==> c.owner == Opponent)
  }

  /** Each deck is no longer than it was: decks are only ever popped. */
  predicate DecksShrink(s: State, r: State) {
    |r.decks.player| <= |s.decks.player| && |r.decks.opponent| <= |s.decks.opponent|
  }

  // ---------------------------------------------------------------------
  // Drawing

  datatype Drawn = Drawn(state: State, card: Option<Card>)

  /** `drawCard(side)`: with a catalog and a non-empty deck, pops the last
      key and appends a new card for it to the side's hand; otherwise
      returns no card and changes nothing. A key without a catalog record
      still yields a card, titled by its key, with every stat 40. */
  function DrawCard(s: State, side: Side, cat: Option<Catalog>): (r: Drawn)
    ensures r.card.None? <==> cat.None? || s.decks.Get(side) == []
    ensures r.card.None? ==> r.state == s
    ensures r.card.Some? ==>
              var d := s.decks.Get(side);
              var c := r.card.value;
              && r.state.decks.Get(side) + [c.key] == d
              && r.state.hands.Get(side) == s.hands.Get(side) + [c]
              && c == NewCard(cat.value, c.key, side)
              && r.state == s.(decks := r.state.decks, hands := r.state.hands)
              && r.state.decks.Get(Other(side)) == s.decks.Get(Other(side))
              && r.state.hands.Get(Other(side)) == s.hands.Get(Other(side))
    ensures HandsOwned(s) ==> HandsOwned(r.state)
  {
    var d := s.decks.Get(side);
    if cat.None? || d == [] then Drawn(s, None)
    else
      var c := NewCard(cat.value, d[|d| - 1], side);
      Drawn(s.(decks := s.decks.Set(side, d[..|d| - 1]),
               hands := s.hands.Set(side, s.hands.Get(side) + [c])), Some(c))
  }

  /** The card created for a drawn key: titled and scored from its catalog
      record, owned by the side that drew it. */
  function NewCard(cat: Catalog, key: string, side: Side): (c: Card)
    ensures c.key == key && c.owner == side && c.title != ""
    ensures c.title == CardTitle(Lookup(cat, key), key)
    ensures c.stats == CardStats(Lookup(cat, key))
    ensures forall a :: Value(c.stats, a) != 0
    ensures key !in cat.entries ==> c.title == key || c.title == FallbackTitle
    ensures key !in cat.entries ==> c.stats == Stats(DefaultStat, DefaultStat, DefaultStat)
  {
    var info := Lookup(cat, key);
    Card(key, CardTitle(info, key), CardStats(info), side)
  }

  function Other(side: Side): Side {
    match side
    case Player => Opponent
    case Opponent => Player
  }

  /** A click on a side's draw button: the player's button does nothing
      while the player's hand is at the limit; otherwise it draws. The
      opponent's hand has no limit. */
  function DrawClick(s: State, side: Side, cat: Option<Catalog>): (r: State)
    ensures side == Player && |s.hands.player| >= HandLimit ==> r == s
    ensures !(side == Player && |s.hands.player| >= HandLimit) ==> r == DrawCard(s, side, cat).state
    ensures |s.hands.player| <= HandLimit ==> |r.hands.player| <= HandLimit
    ensures |r.hands.Get(side)| <= |s.hands.Get(side)| + 1
    ensures r.hands.Get(Other(side)) == s.hands.Get(Other(side))
    ensures r == s.(decks := r.decks, hands := r.hands)
    ensures DecksShrink(s, r)
    ensures HandsOwned(s) ==> HandsOwned(r)
  {
    if side == Player && |s.hands.player| >= HandLimit then s
    else DrawCard(s, side, cat).state
  }

  // ---------------------------------------------------------------------
  // Duel

  datatype Outcome = PlayerWins | OpponentWins | Tie

  /** Strictly higher score wins; equal scores tie. */
  function DuelOutcome(p: Stats, o: Stats, sel: Option<Attr>): (w: Outcome)
    ensures w == PlayerWins <==> Score(p, sel) > Score(o, sel)
    ensures w == OpponentWins <==> Score(o, sel) > Score(p, sel)
    ensures w == Tie <==> Score(p, sel) == Score(o, sel)
  {
    var pv := Score(p, sel);
    var ov := Score(o, sel);
    if pv > ov then PlayerWins else if ov > pv then OpponentWins else Tie
  }

  /** Swapping the two cards swaps the winner: the duel favours no side. */
  lemma DuelIsFair(p: Stats, o: Stats, sel: Option<Attr>)
    ensures DuelOutcome(p, o, sel) == PlayerWins <==> DuelOutcome(o, p, sel) == OpponentWins
    ensures DuelOutcome(p, o, sel) == Tie <==> DuelOutcome(o, p, sel) == Tie
  {
  }

  /** The loser of the duel takes the damage; a tie changes nothing. */
  function ApplyOutcome(life: PerSide<int>, w: Outcome): (r: PerSide<int>)
    ensures w == PlayerWins ==> r.opponent == life.opponent - Damage && r.player == life.player
    ensures w == OpponentWins ==> r.player == life.player - Damage && r.opponent == life.opponent
    ensures w == Tie ==> r == life
    ensures LifeStep(life, r)
    ensures r.player <= life.player && r.opponent <= life.opponent
  {
    match w
    case PlayerWins => life.(opponent := life.opponent - Damage)
    case OpponentWins => life.(player := life.player - Damage)
    case Tie => life
  }

  predicate GameOver(life: PerSide<int>) {
    life.player <= 0 || life.opponent <= 0
  }

  /** The side announced as winner at game end. The player's life is
      checked first, so when both reach zero the opponent wins. */
  function Winner(life: PerSide<int>): (w: Option<Side>)
    ensures w.Some? <==> GameOver(life)
    ensures w == Some(Opponent) <==> life.player <= 0
    ensures w == Some(Player) ==> life.opponent <= 0 && life.player > 0
  {
    if life.player <= 0 then Some(Opponent)
    else if life.opponent <= 0 then Some(Player)
    else None
  }

  /** The continuation that runs after a duel: both played cards leave the
      table; the game ends if either life is at or below zero (keeping the
      selected attribute), otherwise the attribute is cleared and the
      player moves next. */
  function Cleanup(s: State): (r: State)
    ensures r.lastPlayed == PerSide(None, None)
    ensures r.life == s.life && r.decks == s.decks && r.hands == s.hands
    ensures r.turn == Ended <==> Winner(s.life).Some?
    ensures GameOver(s.life) ==> r.selected == s.selected
    ensures !GameOver(s.life) ==> r.turn == PlayerTurn && r.selected == None
  {
    var cleared := s.(lastPlayed := PerSide(None, None));
    if GameOver(s.life) then cleared.(turn := Ended)
    else cleared.(selected := None, turn := PlayerTurn)
  }

  /** `resolveBattle`: with both cards on the table, compares them on the
      selected attribute (or the stat sum), damages the loser and cleans up.
      With either slot empty it changes nothing. */
  function ResolveBattle(s: State): (r: State)
    ensures s.lastPlayed.player.None? || s.lastPlayed.opponent.None? ==> r == s
    ensures s.lastPlayed.player.Some? && s.lastPlayed.opponent.Some? ==>
              var w := DuelOutcome(s.lastPlayed.player.value.stats, s.lastPlayed.opponent.value.stats, s.selected);
              && r.life == ApplyOutcome(s.life, w)
              && r.lastPlayed == PerSide(None, None)
              && (r.turn == Ended <==> GameOver(r.life))
              && (r.turn != Ended ==> r.turn == PlayerTurn && r.selected == None)
              && (r.turn == Ended ==> r.selected == s.selected)
    ensures LifeStep(s.life, r.life)
    ensures r.decks == s.decks && r.hands == s.hands
  {
    match (s.lastPlayed.player, s.lastPlayed.opponent)
    case (Some(p), Some(o)) =>
      Cleanup(s.(life := ApplyOutcome(s.life, DuelOutcome(p.stats, o.stats, s.selected))))
    case _ => s
  }

  /** `playCardToSlot`: records the card as the side's played card (any
      earlier one is replaced); with both slots filled the duel resolves at
      once; a player card otherwise hands the turn to the opponent. The
      card has already left its hand. */
  function PlayCardToSlot(s: State, card: Card, side: Side): (r: State)
    ensures s.lastPlayed.Get(Other(side)).Some? ==>
              var p := if side == Player then card else s.lastPlayed.player.value;
              var o := if side == Opponent then card else s.lastPlayed.opponent.value;
              && r.life == ApplyOutcome(s.life, DuelOutcome(p.stats, o.stats, s.selected))
              && r.lastPlayed == PerSide(None, None)
              && (r.turn == Ended <==> GameOver(r.life))
              && (r.turn != Ended ==> r.turn == PlayerTurn && r.selected == None)
              && (r.turn == Ended ==> r.selected == s.selected)
    ensures s.lastPlayed.Get(Other(side)).None? ==>
              && r.lastPlayed == s.lastPlayed.Set(side, Some(card))
              && r.life == s.life
              && r.selected == s.selected
              && r.turn == (if side == Player then OpponentTurn else s.turn)
    ensures LifeStep(s.life, r.life)
    ensures r.decks == s.decks && r.hands == s.hands
  {
    var played := s.(lastPlayed := s.lastPlayed.Set(side, Some(card)));
    if played.lastPlayed.player.Some? && played.lastPlayed.opponent.Some? then ResolveBattle(played)
    else if side == Player then played.(turn := OpponentTurn)
    else played
  }

  // ---------------------------------------------------------------------
  // Dropping a card on a slot

  /** Where the dragged card comes from: a position in one side's hand. */
  datatype Source = FromHand(side: Side, index: nat)

  /** The answer to the attribute dialog. */
  datatype Choice = Choose(attr: Attr) | Cancel

  function Dragged(s: State, src: Source): Option<Card> {
    var h := s.hands.Get(src.side);
    if src.index < |h| then Some(h[src.index]) else None
  }

  /** The drop is refused: nothing dragged, a card the player does not own,
      the player's slot outside the player's turn, or the opponent's slot
      during the player's turn. */
  predicate Refused(s: State, src: Source, target: Side)
    ensures !Refused(s, src, target) <==>
              && Dragged(s, src).Some?
              && Dragged(s, src).value.owner == Player
              && (target == Player <==> s.turn == PlayerTurn)
  {
    || Dragged(s, src).None?
    || Dragged(s, src).value.owner != Player
    || (target == Player && s.turn != PlayerTurn)
    || (target == Opponent && s.turn == PlayerTurn)
  }

  function TakeFromHand(s: State, src: Source): (r: State)
    requires Dragged(s, src).Some?
    ensures r == s.(hands := r.hands)
    ensures r.hands.Get(Other(src.side)) == s.hands.Get(Other(src.side))
    ensures multiset(r.hands.Get(src.side)) + multiset{Dragged(s, src).value} == multiset(s.hands.Get(src.side))
    ensures |r.hands.Get(src.side)| == |s.hands.Get(src.side)| - 1
    ensures r.hands.Get(src.side) == RemoveAt(s.hands.Get(src.side), src.index)
    ensures HandsOwned(s) ==> HandsOwned(r)
  {
    RemoveAtMultiset(s.hands.Get(src.side), src.index);
    RemoveKeepsOwner(s.hands.Get(src.side), src.index, src.side);
    s.(hands := s.hands.Set(src.side, RemoveAt(s.hands.Get(src.side), src.index)))
  }

  /** The attribute dialog was dismissed: the card goes back to the end of
      the player's hand and nothing else changes. */
  function CancelDrop(s: State, src: Source): (r: State)
    requires Dragged(s, src).Some? && Dragged(s, src).value.owner == Player
    ensures r.turn == s.turn && r.lastPlayed == s.lastPlayed && r.selected == s.selected
    ensures r.life == s.life && r.decks == s.decks
    ensures multiset(r.hands.player) + multiset(r.hands.opponent)
            == multiset(s.hands.player) + multiset(s.hands.opponent)
    ensures |r.hands.player| > 0 && r.hands.player[|r.hands.player| - 1] == Dragged(s, src).value
    ensures src.side == Player ==> |r.hands.player| == |s.hands.player|
    ensures src.side == Player ==>
              && r.hands.player == RemoveAt(s.hands.player, src.index) + [Dragged(s, src).value]
              && r.hands.opponent == s.hands.opponent
    ensures src.side == Opponent ==>
              && r.hands.player == s.hands.player + [Dragged(s, src).value]
              && r.hands.opponent == RemoveAt(s.hands.opponent, src.index)
    ensures HandsOwned(s) ==> HandsOwned(r)
  {
    var card := Dragged(s, src).value;
    var taken := TakeFromHand(s, src);
    var r := taken.(hands := taken.hands.(player := taken.hands.player + [card]));
    r
  }

  /** An attribute was chosen: it becomes the selected attribute, the card
      becomes the player's played card and the opponent moves next. */
  function ChooseDrop(s: State, src: Source, a: Attr): (r: State)
    requires Dragged(s, src).Some?
    ensures r.turn == OpponentTurn
    ensures r.selected == Some(a)
    ensures r.lastPlayed == s.lastPlayed.(player := Dragged(s, src))
    ensures r.life == s.life && r.decks == s.decks
    ensures multiset(r.hands.Get(src.side)) + multiset{Dragged(s, src).value} == multiset(s.hands.Get(src.side))
    ensures |r.hands.Get(src.side)| == |s.hands.Get(src.side)| - 1
    ensures r.hands.Get(Other(src.side)) == s.hands.Get(Other(src.side))
    ensures HandsOwned(s) ==> HandsOwned(r)
  {
    var taken := TakeFromHand(s, src);
    taken.(selected := Some(a), lastPlayed := s.lastPlayed.(player := Dragged(s, src)), turn := OpponentTurn)
  }

  /** A player card dropped on the opponent's slot outside the player's
      turn is played as the opponent's card. */
  function DropOnOpponentSlot(s: State, src: Source): (r: State)
    requires Dragged(s, src).Some? && Dragged(s, src).value.owner == Player
    ensures s.lastPlayed.player.None? ==>
              && r.lastPlayed == s.lastPlayed.(opponent := Dragged(s, src))
              && r.life == s.life && r.turn == s.turn && r.selected == s.selected
    ensures s.lastPlayed.player.Some? ==>
              && r.life == ApplyOutcome(s.life, DuelOutcome(s.lastPlayed.player.value.stats, Dragged(s, src).value.stats, s.selected))
              && r.lastPlayed == PerSide(None, None)
              && (r.turn == Ended <==> GameOver(r.life))
              && (r.turn != Ended ==> r.turn == PlayerTurn && r.selected == None)
              && (r.turn == Ended ==> r.selected == s.selected)
    ensures LifeStep(s.life, r.life)
    ensures r.decks == s.decks
    ensures multiset(r.hands.Get(src.side)) + multiset{Dragged(s, src).value} == multiset(s.hands.Get(src.side))
    ensures r.hands.Get(Other(src.side)) == s.hands.Get(Other(src.side))
    ensures |r.hands.player| <= |s.hands.player|
    ensures HandsOwned(s) ==> HandsOwned(r)
  {
    var taken := TakeFromHand(s, src);
    PlayCardToSlot(taken, Dragged(s, src).value, Opponent)
  }

  /** The slot drop handler. A refused drop changes nothing. On the
      player's slot the attribute dialog follows (see ChooseDrop and
      CancelDrop); the opponent's move is a later event. On the opponent's
      slot (outside the player's turn) the player's card is played as the
      opponent's card. */
  function Drop(s: State, src: Source, target: Side, choice: Choice): (r: State)
    ensures Refused(s, src, target) ==> r == s
    ensures !Refused(s, src, target) && target == Player && choice.Cancel? ==>
              && r.turn == s.turn && r.lastPlayed == s.lastPlayed && r.selected == s.selected
              && r.life == s.life
              && |r.hands.player| > 0 && r.hands.player[|r.hands.player| - 1] == Dragged(s, src).value
              && (src.side == Player ==>
                    && r.hands.player == RemoveAt(s.hands.player, src.index) + [Dragged(s, src).value]
                    && r.hands.opponent == s.hands.opponent)
              && (src.side == Opponent ==>
                    && r.hands.player == s.hands.player + [Dragged(s, src).value]
                    && r.hands.opponent == RemoveAt(s.hands.opponent, src.index))
              && multiset(r.hands.player) + multiset(r.hands.opponent)
                 == multiset(s.hands.player) + multiset(s.hands.opponent)
              && (src.side == Player ==> |r.hands.player| == |s.hands.player|)
    ensures !Refused(s, src, target) && target == Player && choice.Choose? ==>
              && r.turn == OpponentTurn
              && r.selected == Some(choice.attr)
              && r.lastPlayed == s.lastPlayed.(player := Dragged(s, src))
              && r.life == s.life
    ensures !Refused(s, src, target) && target == Opponent && s.lastPlayed.player.None? ==>
              && r.lastPlayed == s.lastPlayed.(opponent := Dragged(s, src)) && r.life == s.life
              && r.turn == s.turn && r.selected == s.selected
    ensures !Refused(s, src, target) && target == Opponent && s.lastPlayed.player.Some? ==>
              && r.life == ApplyOutcome(s.life, DuelOutcome(s.lastPlayed.player.value.stats, Dragged(s, src).value.stats, s.selected))
              && r.lastPlayed == PerSide(None, None)
              && (r.turn == Ended <==> GameOver(r.life))
              && (r.turn != Ended ==> r.turn == PlayerTurn && r.selected == None)
              && (r.turn == Ended ==> r.selected == s.selected)
    ensures !Refused(s, src, target) && !(target == Player && choice.Cancel?) ==>
              && multiset(r.hands.Get(src.side)) + multiset{Dragged(s, src).value} == multiset(s.hands.Get(src.side))
              && r.hands.Get(Other(src.side)) == s.hands.Get(Other(src.side))
    ensures LifeStep(s.life, r.life)
    ensures r.decks == s.decks
    ensures HandsOwned(s) ==> |r.hands.player| <= |s.hands.player|
    ensures HandsOwned(s) ==> HandsOwned(r)
  {
    if Refused(s, src, target) then s
    else if target == Player then
      match choice
      case Cancel => CancelDrop(s, src)
      case Choose(a) => ChooseDrop(s, src, a)
    else DropOnOpponentSlot(s, src)
  }

  /** While every hand holds only its own side's cards, no drop of an
      opponent card is accepted, whatever the slot or the dialog answer. */
  lemma OpponentCardsNeverDropped(s: State, i: nat, target: Side, choice: Choice)
    requires HandsOwned(s)
    ensures Drop(s, FromHand(Opponent, i), target, choice) == s
  {
    if i < |s.hands.opponent| {
      assert s.hands.opponent[i] in s.hands.opponent;
    }
  }

  // ---------------------------------------------------------------------
  // Turn toggle and reset

  /** The end-turn button: the player's turn passes to the opponent and
      every other turn, an ended game included, passes to the player. The
      opponent's move that follows is a later event. */
  function EndTurn(s: State): (r: State)
    ensures r.turn != s.turn
    ensures r.turn != Ended
    ensures r == s.(turn := r.turn)
  {
    s.(turn := if s.turn == PlayerTurn then OpponentTurn else PlayerTurn)
  }

  /** Two presses of end-turn during play come back to the same turn. */
  lemma EndTurnTwice(s: State)
    requires s.turn != Ended
    ensures EndTurn(EndTurn(s)) == s
  {
  }

  /** The state a reset starts from, with both decks set to `d`. */
  function Fresh(d: seq<string>): State {
    State(PlayerTurn, PerSide(PlayerStartLife, OpponentStartLife), PerSide(None, None), None,
          PerSide(d, d), PerSide([], []))
  }

  function Keys(hand: seq<Card>): (ks: seq<string>)
    ensures |ks| == |hand|
    ensures forall i :: 0 <= i < |hand| ==> ks[i] == hand[i].key
  {
    if hand == [] then [] else [hand[0].key] + Keys(hand[1..])
  }

  /** The key bookkeeping of two draws into an empty hand. */
  lemma TwoDrawsPop(s: State, side: Side, cat: Catalog)
    requires s.hands.Get(side) == []
    ensures var d := s.decks.Get(side);
            var n := Min(StarterHand, |d|);
            var r := DrawCard(DrawCard(s, side, Some(cat)).state, side, Some(cat)).state;
            && Keys(r.hands.Get(side)) == PopAll(d)[..n]
            && r.decks.Get(side) == d[..|d| - n]
            && FromCatalog(r.hands.Get(side), cat, side)
  {
    var d := s.decks.Get(side);
    var r1 := DrawCard(s, side, Some(cat));
    var r2 := DrawCard(r1.state, side, Some(cat));
    if |d| >= 2 {
      assert r1.state.decks.Get(side) == d[..|d| - 1];
      assert r2.state.hands.Get(side) == [r1.card.value, r2.card.value];
      assert Keys(r2.state.hands.Get(side)) == [d[|d| - 1], d[|d| - 2]];
      assert r2.state.decks.Get(side) == d[..|d| - 2];
    } else if |d| == 1 {
      assert r1.state.decks.Get(side) == [];
      assert r2.state.hands.Get(side) == [r1.card.value];
    }
  }

  /** Every card of the hand is the one built from its key's catalog
      record for that side. */
  predicate FromCatalog(hand: seq<Card>, cat: Catalog, side: Side) {
    forall c :: c in hand ==> c == NewCard(cat, c.key, side)
  }

  /** Two draws into an empty hand take the last two keys of the deck,
      which are its first two pops. */
  function DrawTwo(s: State, side: Side, cat: Option<Catalog>): (r: State)
    requires s.hands.Get(side) == []
    ensures cat.None? ==> r == s
    ensures cat.Some? ==>
              var d := s.decks.Get(side);
              var n := Min(StarterHand, |d|);
              && Keys(r.hands.Get(side)) == PopAll(d)[..n]
              && r.decks.Get(side) == d[..|d| - n]
              && FromCatalog(r.hands.Get(side), cat.value, side)
    ensures r.decks.Get(Other(side)) == s.decks.Get(Other(side))
    ensures r.hands.Get(Other(side)) == s.hands.Get(Other(side))
    ensures r == s.(decks := r.decks, hands := r.hands)
    ensures |r.hands.Get(side)| <= StarterHand
    ensures HandsOwned(s) ==> HandsOwned(r)
  {
    var r1 := DrawCard(s, side, cat);
    var r2 := DrawCard(r1.state, side, cat);
    if cat.Some? then
      TwoDrawsPop(s, side, cat.value);
      r2.state
    else r2.state
  }

  /** The starter draws of a reset: two for the player, then two for the
      opponent (not subject to the hand limit). */
  function StarterHands(s: State, cat: Option<Catalog>): (r: State)
    requires s.hands == PerSide([], [])
    requires HandsOwned(s)
    ensures r == s.(decks := r.decks, hands := r.hands)
    ensures cat.None? ==> r == s
    ensures cat.Some? ==>
              && Keys(r.hands.player) == PopAll(s.decks.player)[..Min(StarterHand, |s.decks.player|)]
              && Keys(r.hands.opponent) == PopAll(s.decks.opponent)[..Min(StarterHand, |s.decks.opponent|)]
              && r.decks.player == s.decks.player[..|s.decks.player| - Min(StarterHand, |s.decks.player|)]
              && r.decks.opponent == s.decks.opponent[..|s.decks.opponent| - Min(StarterHand, |s.decks.opponent|)]
              && FromCatalog(r.hands.player, cat.value, Player)
              && FromCatalog(r.hands.opponent, cat.value, Opponent)
    ensures HandsOwned(r)
    ensures |r.hands.player| <= StarterHand
  {
    var s1 := DrawTwo(s, Player, cat);
    assert s1.hands.opponent == [] && s1.decks.opponent == s.decks.opponent;
    var r := DrawTwo(s1, Opponent, cat);
    assert r.hands.player == s1.hands.player && r.decks.player == s1.decks.player;
    r
  }

  /** A reset: a fresh state with life 25 and 20, the player to move, no
      played cards and no attribute, both decks rebuilt, then the starter
      hands. */
  function Reset(cat: Option<Catalog>): (r: State)
    ensures r.turn == PlayerTurn && r.selected == None
    ensures r.life == PerSide(PlayerStartLife, OpponentStartLife)
    ensures r.lastPlayed == PerSide(None, None)
    ensures cat.None? ==> r.hands == PerSide([], []) && r.decks == PerSide(BuildDeck(cat), BuildDeck(cat))
    ensures HandsOwned(r)
    ensures |r.decks.player| <= MaxDeckCards && |r.decks.opponent| <= MaxDeckCards
    ensures |r.hands.player| <= StarterHand
  {
    var s0 := Fresh(BuildDeck(cat));
    assert HandsOwned(s0);
    StarterHands(s0, cat)
  }

  /** With a catalog, each starter hand holds the first keys of the
      ordered list (two, or one when the list has a single key), and each
      deck has lost exactly those keys from its end. */
  lemma StarterHandsInPageOrder(cat: Catalog)
    ensures var d := BuildDeck(Some(cat));
            var n := Min(StarterHand, |d|);
            var r := Reset(Some(cat));
            && Keys(r.hands.player) == FinalList(Some(cat))[..n]
            && Keys(r.hands.opponent) == FinalList(Some(cat))[..n]
            && r.decks.player == d[..|d| - n]
            && r.decks.opponent == d[..|d| - n]
  {
    var d := BuildDeck(Some(cat));
    var n := Min(StarterHand, |d|);
    ResetDrawsFromDeck(cat);
    PrefixOfPrefix(FinalList(Some(cat)), Min(|FinalList(Some(cat))|, MaxDeckCards), n);
  }

  /** The starter hands of a reset are the first pops of the freshly built
      deck. */
  lemma ResetDrawsFromDeck(cat: Catalog)
    ensures var d := BuildDeck(Some(cat));
            var n := Min(StarterHand, |d|);
            var r := Reset(Some(cat));
            && Keys(r.hands.player) == PopAll(d)[..n]
            && Keys(r.hands.opponent) == PopAll(d)[..n]
            && r.decks.player == d[..|d| - n]
            && r.decks.opponent == d[..|d| - n]
  {
    StarterHandsOfDeck(BuildDeck(Some(cat)), cat);
  }

  /** Starter hands drawn from two copies of the deck `d`. */
  lemma StarterHandsOfDeck(d: seq<string>, cat: Catalog)
    ensures var n := Min(StarterHand, |d|);
            var r := StarterHands(Fresh(d), Some(cat));
            && Keys(r.hands.player) == PopAll(d)[..n]
            && Keys(r.hands.opponent) == PopAll(d)[..n]
            && r.decks.player == d[..|d| - n]
            && r.decks.opponent == d[..|d| - n]
  {
    assert HandsOwned(Fresh(d));
  }

  lemma PrefixOfPrefix(l: seq<string>, m: nat, n: nat)
    requires n <= m <= |l|
    ensures l[..m][..n] == l[..n]
  {
  }

  /** With a record for every page key, each side starts holding the first
      two cards of the page, "pedro" then "mateus", and keeps the other
      eight in its deck. */
  lemma FullCatalogStarterHands(cat: Catalog)
    requires forall k :: k in CardsPageOrder ==> k in cat.keys && k in cat.entries
    ensures Keys(Reset(Some(cat)).hands.player) == ["pedro", "mateus"]
    ensures Keys(Reset(Some(cat)).hands.opponent) == ["pedro", "mateus"]
    ensures |Reset(Some(cat)).decks.player| == 8 && |Reset(Some(cat)).decks.opponent| == 8
  {
    FullCatalogDrawsPageOrder(cat);
    StarterHandsInPageOrder(cat);
    PageOrderStart();
  }
}

=== FILE: carddata.dfy ===
/** The card catalog (the parsed `cards_data.json`) and what a card drawn
    from it looks like. The catalog itself is an input; loading it is not
    part of this model. */
module CardData {
  import opened Wrappers
  import opened Attributes

  /** One catalog record. An empty `name` or `title` is falsy; `stats` is
      None when the record has no stats object. */
  datatype Entry = Entry(name: string, title: string, stats: Option<RawStats>)

  /** `keys` is `Object.keys(data)` in its enumeration order. */
  datatype Catalog = Catalog(keys: seq<string>, entries: map<string, Entry>)

  function Lookup(cat: Catalog, key: string): Option<Entry> {
    if key in cat.entries then Some(cat.entries[key]) else None
  }

  /** Stats assumed for a key whose record is missing or has no stats: the
      legacy-schema object `{forca: 40, agilidade: 40, magia: 40}`. */
  const MissingStats: RawStats := map["forca" := 40, "agilidade" := 40, "magia" := 40]

  /** Title a card shows when its title would otherwise be empty. */
  const FallbackTitle: string := "Carta"

  /** Display title: the record's name, else its title, else the key
      itself, and the fallback title when even the key is empty. */
  function CardTitle(info: Option<Entry>, key: string): (t: string)
    ensures t != ""
    ensures info.Some? && info.value.name != "" ==> t == info.value.name
    ensures info.Some? && info.value.name == "" && info.value.title != "" ==> t == info.value.title
    ensures (info.None? || (info.value.name == "" && info.value.title == "")) && key != "" ==> t == key
    ensures t == FallbackTitle || t == key || (info.Some? && (t == info.value.name || t == info.value.title))
  {
    if info.Some? && info.value.name != "" then info.value.name
    else if info.Some? && info.value.title != "" then info.value.title
    else if key != "" then key
    else FallbackTitle
  }

  /** Normalized stats of a drawn card. A missing record or missing stats
      object gives 40 on every attribute. */
  function CardStats(info: Option<Entry>): (st: Stats)
    ensures forall a :: Value(st, a) != 0
    ensures info.None? || info.value.stats.None? ==> st == Stats(DefaultStat, DefaultStat, DefaultStat)
    ensures info.Some? && info.value.stats.Some? ==> st == Normalize(info.value.stats)
  {
    var raw := if info.Some? && info.value.stats.Some? then info.value.stats.value else MissingStats;
    assert !HasCurrentKeys(MissingStats);
    Normalize(Some(raw))
  }
}

=== FILE: deck.dfy ===
/** Deck construction and draw order. A deck is a sequence of catalog keys
    drawn from its end, so it is stored reversed. */
module Deck {
  import opened Wrappers
  import opened CardData

  const MaxDeckCards: nat := 10

  /** Keys used when there is no catalog, or the catalog yields no usable key. */
  const DefaultLibrary: seq<string> :=
    ["pedro", "mateus", "joao", "judas_escariotes", "judas_tadeu",
     "thiago_maior", "paulo", "davi", "moises", "jesus_bonus"]

  /** The presentation order of the card library page. */
  const CardsPageOrder: seq<string> :=
    ["pedro", "mateus", "joao", "judas_escariotes", "judas_tadeu",
     "thiago_maior", "paulo", "davi", "moises", "jesus_bonus"]

  function Min(a: int, b: int): int {
    if a <= b then a else b
  }

  predicate NoDups<T(==)>(xs: seq<T>) {
    forall i, j :: 0 <= i < j < |xs| ==> xs[i] != xs[j]
  }

  /** `xs.filter(k => allowed(k))` for a membership test. */
  function KeepIn(xs: seq<string>, allowed: set<string>): (r: seq<string>)
    ensures |r| <= |xs|
    ensures forall x :: x in r <==> x in xs && x in allowed
    ensures NoDups(xs) ==> NoDups(r)
  {
    if xs == [] then []
    else
      var rest := KeepIn(xs[1..], allowed);
      assert forall x :: x in xs[1..] ==> x in xs;
      assert NoDups(xs) ==> NoDups(xs[1..]) by {
        if NoDups(xs) {
          forall i, j | 0 <= i < j < |xs[1..]|
            ensures xs[1..][i] != xs[1..][j]
          {
            assert xs[1..][i] == xs[i + 1] && xs[1..][j] == xs[j + 1];
          }
        }
      }
      if xs[0] in allowed then
        assert NoDups(xs) ==> xs[0] !in xs[1..];
        [xs[0]] + rest
      else rest
  }

  /** Filtering distributes over concatenation, so the kept keys stay in
      their original order. */
  lemma {:induction false} KeepInAppend(a: seq<string>, b: seq<string>, allowed: set<string>)
    ensures KeepIn(a + b, allowed) == KeepIn(a, allowed) + KeepIn(b, allowed)
  {
    if a == [] {
      assert a + b == b;
    } else {
      var head := if a[0] in allowed then [a[0]] else [];
      var x, y := KeepIn(a[1..], allowed), KeepIn(b, allowed);
      assert a == [a[0]] + a[1..];
      assert a + b == [a[0]] + (a[1..] + b);
      KeepInCons(a[0], a[1..] + b, allowed);
      KeepInAppend(a[1..], b, allowed);
      assert KeepIn(a + b, allowed) == head + (x + y);
      KeepInCons(a[0], a[1..], allowed);
      assert KeepIn(a, allowed) == head + x;
      ConcatAssoc(head, x, y);
    }
  }

  lemma ConcatAssoc(h: seq<string>, x: seq<string>, y: seq<string>)
    ensures h + (x + y) == (h + x) + y
  {
  }

  /** Filtering a sequence with a first element. */
  lemma KeepInCons(x: string, xs: seq<string>, allowed: set<string>)
    ensures KeepIn([x] + xs, allowed) == (if x in allowed then [x] else []) + KeepIn(xs, allowed)
  {
    assert ([x] + xs)[1..] == xs;
  }

  /** Filtering a sequence whose every element is allowed leaves it as is. */
  lemma {:induction false} KeepInAll(xs: seq<string>, allowed: set<string>)
    requires forall x :: x in xs ==> x in allowed
    ensures KeepIn(xs, allowed) == xs
  {
    if xs != [] {
      assert forall x :: x in xs[1..] ==> x in xs;
      KeepInAll(xs[1..], allowed);
      assert [xs[0]] + xs[1..] == xs;
    }
  }

  /** The usable keys: the catalog's own keys that it holds a record for
      (every key, for a well-formed catalog), or the default library when
      there is no catalog or that list is empty. */
  function Usable(cat: Option<Catalog>): (u: seq<string>)
    ensures |u| > 0
    ensures cat.None? ==> u == DefaultLibrary
    ensures cat.Some? && KeepIn(cat.value.keys, cat.value.entries.Keys) != [] ==>
              u == KeepIn(cat.value.keys, cat.value.entries.Keys) &&
              forall k :: k in u ==> k in cat.value.entries
    ensures cat.Some? && KeepIn(cat.value.keys, cat.value.entries.Keys) == [] ==> u == DefaultLibrary
  {
    var usable := if cat.Some? then KeepIn(cat.value.keys, cat.value.entries.Keys) else DefaultLibrary;
    if |usable| == 0 then DefaultLibrary else usable
  }

  function UsableSet(cat: Option<Catalog>): (ks: set<string>)
    ensures forall k :: k in ks <==> k in Usable(cat)
  {
    set k | k in Usable(cat)
  }

  /** The page order restricted to usable keys, or the usable keys as they
      are when none of them is on the page. */
  function FinalList(cat: Option<Catalog>): (l: seq<string>)
    ensures |l| > 0
    ensures forall k :: k in l ==> k in Usable(cat)
    ensures (exists k :: k in CardsPageOrder && k in Usable(cat)) ==>
              (forall k :: k in l <==> k in CardsPageOrder && k in Usable(cat)) &&
              l == KeepIn(CardsPageOrder, UsableSet(cat))
    ensures !(exists k :: k in CardsPageOrder && k in Usable(cat)) ==> l == Usable(cat)
  {
    var ordered := KeepIn(CardsPageOrder, UsableSet(cat));
    if |ordered| > 0 then
      assert ordered[0] in CardsPageOrder && ordered[0] in Usable(cat);
      ordered
    else Usable(cat)
  }

  function Reverse<T>(xs: seq<T>): (r: seq<T>)
    ensures |r| == |xs|
    ensures forall i :: 0 <= i < |xs| ==> r[i] == xs[|xs| - 1 - i]
  {
    if xs == [] then [] else Reverse(xs[1..]) + [xs[0]]
  }

  /** The ids successive pops return, until the deck is empty. */
  function PopAll<T>(d: seq<T>): (r: seq<T>)
    ensures |r| == |d|
    ensures forall i :: 0 <= i < |d| ==> r[i] == d[|d| - 1 - i]
  {
    if d == [] then [] else [d[|d| - 1]] + PopAll(d[..|d| - 1])
  }

  /** Popping a deck to the end reads it backwards. */
  lemma PopAllIsReverse<T>(d: seq<T>)
    ensures PopAll(d) == Reverse(d)
  {
  }

  /** The deck built for each side on reset: the first ten keys of the
      final list, reversed so that popping yields them front to back. */
  function BuildDeck(cat: Option<Catalog>): (d: seq<string>)
    ensures 1 <= |d| <= MaxDeckCards
    ensures forall k :: k in d ==> k in FinalList(cat)
    ensures PopAll(d) == FinalList(cat)[..Min(|FinalList(cat)|, MaxDeckCards)]
  {
    var l := FinalList(cat);
    var front := l[..Min(|l|, MaxDeckCards)];
    PopReversed(front);
    PrefixMembers(l, Min(|l|, MaxDeckCards));
    Reverse(front)
  }

  lemma PopReversed(xs: seq<string>)
    ensures PopAll(Reverse(xs)) == xs
    ensures forall k :: k in Reverse(xs) ==> k in xs
  {
    var d := Reverse(xs);
    assert forall i :: 0 <= i < |d| ==> d[i] in xs;
  }

  lemma PrefixMembers(l: seq<string>, n: nat)
    requires n <= |l|
    ensures forall k :: k in l[..n] ==> k in l
  {
  }

  /** Every key in a deck built from a catalog that holds records has a
      record; only an empty or recordless catalog falls back to keys that
      the catalog does not know. */
  lemma DeckKeysKnown(cat: Catalog)
    requires KeepIn(cat.keys, cat.entries.Keys) != []
    ensures forall k :: k in BuildDeck(Some(cat)) ==> k in cat.entries
  {
  }

  /** A catalog whose every key has a record is used whole, in its own key
      order. */
  lemma WellFormedCatalogUsedWhole(cat: Catalog)
    requires cat.keys != []
    requires forall k :: k in cat.keys ==> k in cat.entries
    ensures Usable(Some(cat)) == cat.keys
  {
    KeepInAll(cat.keys, cat.entries.Keys);
  }

  /** With a record for every page key, each side draws exactly the page
      order, front to back. */
  lemma FullCatalogDrawsPageOrder(cat: Catalog)
    requires forall k :: k in CardsPageOrder ==> k in cat.keys && k in cat.entries
    ensures FinalList(Some(cat)) == CardsPageOrder
    ensures PopAll(BuildDeck(Some(cat))) == CardsPageOrder
    ensures |BuildDeck(Some(cat))| == MaxDeckCards
  {
    var u := Usable(Some(cat));
    PageKeysUsable(cat);
    assert CardsPageOrder[0] in CardsPageOrder && CardsPageOrder[0] in u;
    KeepInAll(CardsPageOrder, UsableSet(Some(cat)));
    assert FinalList(Some(cat)) == CardsPageOrder;
  }

  lemma PageOrderStart()
    ensures CardsPageOrder[..2] == ["pedro", "mateus"]
  {
  }

  lemma PageKeysUsable(cat: Catalog)
    requires forall k :: k in CardsPageOrder ==> k in cat.keys && k in cat.entries
    ensures forall k :: k in CardsPageOrder ==> k in Usable(Some(cat))
  {
    var kept := KeepIn(cat.keys, cat.entries.Keys);
    assert CardsPageOrder[0] in kept;
  }

  lemma PageOrderHasNoDups()
    ensures NoDups(CardsPageOrder) && DefaultLibrary == CardsPageOrder
  {
  }

  lemma UsableHasNoDups(cat: Option<Catalog>)
    requires cat.Some? ==> NoDups(cat.value.keys)
    ensures NoDups(Usable(cat))
  {
  }

  lemma FinalListHasNoDups(cat: Option<Catalog>)
    requires cat.Some? ==> NoDups(cat.value.keys)
    ensures NoDups(FinalList(cat))
  {
    PageOrderHasNoDups();
    UsableHasNoDups(cat);
  }

  lemma ReversedPrefixHasNoDups(l: seq<string>, n: nat)
    requires NoDups(l) && n <= |l|
    ensures NoDups(Reverse(l[..n]))
  {
  }

  /** A deck never holds the same key twice when the catalog keys are
      distinct, as object keys always are. */
  lemma DeckHasNoDups(cat: Option<Catalog>)
    requires cat.Some? ==> NoDups(cat.value.keys)
    ensures NoDups(BuildDeck(cat))
  {
    var l := FinalList(cat);
    FinalListHasNoDups(cat);
    ReversedPrefixHasNoDups(l, Min(|l|, MaxDeckCards));
  }
}

=== FILE: game.dfy ===
/** The page's event handlers as one step function over the battle state,
    and what holds along any sequence of events. */
module Game {
  import opened Wrappers
  import opened Attributes
  import opened CardData
  import opened Deck
  import opened Battle
  import opened Opponent

  /** The inputs the battle reacts to. `OpponentTimer` is the delayed
      `opponentPlay` scheduled by an attribute choice or an end-turn press;
      here it may fire at any point. Each handler runs to completion as one
      step, so the source's delayed cleanup after a duel is taken to happen
      at once. */
  datatype Event =
    | DrawClicked(side: Side)
    | Dropped(src: Source, target: Side, choice: Choice)
    | OpponentTimer(firstDrawButton: Side)
    | EndTurnClicked
    | ResetClicked

  /** One event. Apart from a reset, no event raises a life, changes a
      life by more than one hit, or grows a deck; no event puts a card in
      the other side's hand, and while that holds no event takes the player
      past the hand limit. */
  function Step(s: State, e: Event, cat: Option<Catalog>): (r: State)
    ensures e.ResetClicked? ==> r == Reset(cat)
    ensures !e.ResetClicked? ==> LifeStep(s.life, r.life) && DecksShrink(s, r)
    ensures HandsOwned(s) ==> HandsOwned(r)
    ensures HandsOwned(s) && |s.hands.player| <= HandLimit ==> |r.hands.player| <= HandLimit
  {
    match e
    case DrawClicked(side) => DrawClick(s, side, cat)
    case Dropped(src, target, choice) => Drop(s, src, target, choice)
    case OpponentTimer(first) => OpponentPlay(s, first, cat)
    case EndTurnClicked => EndTurn(s)
    case ResetClicked => Reset(cat)
  }

  function Run(s: State, es: seq<Event>, cat: Option<Catalog>): State
    decreases |es|
  {
    if es == [] then s else Run(Step(s, es[0], cat), es[1..], cat)
  }

  /** Life reached from `start` by whole hits of 3 damage. */
  predicate LifeFrom(life: int, start: int) {
    life <= start && (start - life) % Damage == 0
  }

  /** What every reachable state satisfies. */
  predicate Inv(s: State) {
    && |s.decks.player| <= MaxDeckCards
    && |s.decks.opponent| <= MaxDeckCards
    && |s.hands.player| <= HandLimit
    && HandsOwned(s)
    && LifeFrom(s.life.player, PlayerStartLife)
    && LifeFrom(s.life.opponent, OpponentStartLife)
  }

  lemma ResetEstablishesInv(cat: Option<Catalog>)
    ensures Inv(Reset(cat))
  {
  }

  /** One event keeps the invariant. */
  lemma StepPreservesInv(s: State, e: Event, cat: Option<Catalog>)
    requires Inv(s)
    ensures Inv(Step(s, e, cat))
  {
    if e.ResetClicked? {
      ResetEstablishesInv(cat);
    } else {
      LifeStepKeepsLifeFrom(s.life, Step(s, e, cat).life);
    }
  }

  /** One hit of 3 or none keeps life on the lattice of whole hits. */
  lemma LifeStepKeepsLifeFrom(before: PerSide<int>, after: PerSide<int>)
    requires LifeFrom(before.player, PlayerStartLife) && LifeFrom(before.opponent, OpponentStartLife)
    requires LifeStep(before, after)
    ensures LifeFrom(after.player, PlayerStartLife) && LifeFrom(after.opponent, OpponentStartLife)
  {
  }

  /** Every state reached from a valid state keeps the invariant: decks of
      at most ten keys, a player hand of at most five cards, each hand
      holding only its own side's cards, and lives that only ever fell by
      whole hits of 3 from 25 and 20. */
  lemma {:induction false} RunPreservesInv(s: State, es: seq<Event>, cat: Option<Catalog>)
    requires Inv(s)
    ensures Inv(Run(s, es, cat))
    decreases |es|
  {
    if es != [] {
      StepPreservesInv(s, es[0], cat);
      RunPreservesInv(Step(s, es[0], cat), es[1..], cat);
    }
  }

  /** Every state the game can reach from a reset satisfies the
      invariant. */
  lemma ReachableStatesKeepInv(cat: Option<Catalog>, es: seq<Event>)
    ensures Inv(Run(Reset(cat), es, cat))
  {
    ResetEstablishesInv(cat);
    RunPreservesInv(Reset(cat), es, cat);
  }

  predicate NoReset(es: seq<Event>) {
    forall i :: 0 <= i < |es| ==> !es[i].ResetClicked?
  }

  /** `after` is `before` less some whole hits of 3 on each side. */
  predicate LifeBelow(before: PerSide<int>, after: PerSide<int>) {
    LifeFrom(after.player, before.player) && LifeFrom(after.opponent, before.opponent)
  }

  lemma LifeBelowTrans(a: PerSide<int>, b: PerSide<int>, c: PerSide<int>)
    requires LifeBelow(a, b) && LifeBelow(b, c)
    ensures LifeBelow(a, c)
  {
  }

  /** One event other than a reset changes life by at most one hit of 3. */
  lemma StepLife(s: State, e: Event, cat: Option<Catalog>)
    requires !e.ResetClicked?
    ensures LifeStep(s.life, Step(s, e, cat).life)
    ensures LifeBelow(s.life, Step(s, e, cat).life)
  {
  }

  /** Without a reset, no life ever rises, and each falls by whole hits
      of 3. */
  lemma {:induction false} LifeNeverRises(s: State, es: seq<Event>, cat: Option<Catalog>)
    requires NoReset(es)
    ensures LifeBelow(s.life, Run(s, es, cat).life)
    decreases |es|
  {
    if es != [] {
      StepLife(s, es[0], cat);
      var s1 := Step(s, es[0], cat);
      assert NoReset(es[1..]) by {
        forall i | 0 <= i < |es[1..]| ensures !es[1..][i].ResetClicked? {
          assert es[1..][i] == es[i + 1];
        }
      }
      LifeNeverRises(s1, es[1..], cat);
      LifeBelowTrans(s.life, s1.life, Run(s1, es[1..], cat).life);
    }
  }

  /** An ended game is not terminal: end-turn hands the turn back to the
      player, and the draw buttons still work. */
  lemma EndedIsNotTerminal(s: State, cat: Catalog)
    requires s.turn == Ended && s.decks.opponent != []
    ensures Step(s, EndTurnClicked, Some(cat)).turn == PlayerTurn
    ensures |Step(s, DrawClicked(Opponent), Some(cat)).hands.opponent| == |s.hands.opponent| + 1
  {
  }

  // ---------------------------------------------------------------------
  // Worked duels

  function Table(p: Stats, opp: seq<Stats>, life: PerSide<int>): State {
    State(PlayerTurn, life, PerSide(None, None), None, PerSide([], []),
          PerSide([Card("p", "p", p, Player)], seq(|opp|, i requires 0 <= i < |opp| => Card("o", "o", opp[i], Opponent))))
  }

  /** The player plays a card, chooses an attribute, and the opponent
      answers. */
  function Duel(p: Stats, opp: seq<Stats>, life: PerSide<int>, a: Attr): State {
    Run(Table(p, opp, life), [Dropped(FromHand(Player, 0), Player, Choose(a)), OpponentTimer(Opponent)], None)
  }

  /** Faith 80 against the opponent's best faith card (faith 30, also its
      own best stat): the opponent loses 3 and the player moves next. */
  lemma FaithDuelWon()
    ensures Duel(Stats(80, 10, 10), [Stats(30, 20, 10)], PerSide(25, 20), Fe).life == PerSide(25, 17)
    ensures Duel(Stats(80, 10, 10), [Stats(30, 20, 10)], PerSide(25, 20), Fe).turn == PlayerTurn
  {
  }

  /** The same faith-80 card against a faith-30, courage-90 card: the
      opponent declares courage, so the duel compares courage and the
      player, who would have won on faith, loses 3. */
  lemma OpponentAttributeDecides()
    ensures Duel(Stats(80, 10, 10), [Stats(30, 90, 10)], PerSide(25, 20), Fe).life == PerSide(22, 20)
  {
  }

  /** Equal faith is a tie: no life changes and both slots are empty. */
  lemma TieChangesNoLife()
    ensures Duel(Stats(50, 60, 10), [Stats(50, 10, 10)], PerSide(25, 20), Fe).life == PerSide(25, 20)
    ensures Duel(Stats(50, 60, 10), [Stats(50, 10, 10)], PerSide(25, 20), Fe).lastPlayed == PerSide(None, None)
  {
  }

  /** The opponent at 3 life losing a duel ends the game with the player
      as winner. */
  lemma LastHitEndsGame()
    ensures Duel(Stats(80, 10, 10), [Stats(30, 20, 10)], PerSide(25, 3), Fe).turn == Ended
    ensures Winner(Duel(Stats(80, 10, 10), [Stats(30, 20, 10)], PerSide(25, 3), Fe).life) == Some(Player)
  {
  }
}

=== FILE: opponent.dfy ===
/** The opponent's move (`opponentPlay`): pick a card from its hand,
    declare that card's best attribute, and play it to the opponent slot. */
module Opponent {
  import opened Wrappers
  import opened Attributes
  import opened CardData
  import opened Battle

  /** `i` is the first position holding the largest value. */
  predicate IsFirstMax(vals: seq<int>, i: int) {
    && 0 <= i < |vals|
    && (forall j :: 0 <= j < |vals| ==> vals[j] <= vals[i])
    && (forall j :: 0 <= j < i ==> vals[j] < vals[i])
  }

  /** The source's scan from position `i` on: `best` starts at -1 and
      `chosen` at 0, and a value replaces the best only when strictly
      greater. The requires clauses are what the scan keeps true of the
      prefix it has seen. */
  function Scan(vals: seq<int>, i: nat, best: int, chosen: nat): (c: nat)
    requires i <= |vals|
    requires best >= -1
    requires forall j :: 0 <= j < i ==> vals[j] <= best
    requires best == -1 ==> chosen == 0
    requires best > -1 ==> chosen < i && vals[chosen] == best && forall j :: 0 <= j < chosen ==> vals[j] < best
    ensures (best > -1 || exists j :: i <= j < |vals| && vals[j] > -1) ==> IsFirstMax(vals, c)
    ensures best == -1 && (forall j :: i <= j < |vals| ==> vals[j] <= -1) ==> c == 0
    decreases |vals| - i
  {
    if i == |vals| then chosen
    else if vals[i] > best then Scan(vals, i + 1, vals[i], i)
    else Scan(vals, i + 1, best, chosen)
  }

  /** Each hand card's value under the selected attribute, or its stat sum
      when none is selected. */
  function Scores(hand: seq<Card>, sel: Option<Attr>): (vs: seq<int>)
    ensures |vs| == |hand|
    ensures forall i :: 0 <= i < |hand| ==> vs[i] == Score(hand[i].stats, sel)
  {
    seq(|hand|, i requires 0 <= i < |hand| => Score(hand[i].stats, sel))
  }

  /** The hand position the opponent plays: the first card with the best
      score, provided some score exceeds -1 (every normalized catalog stat
      does); otherwise the first card. */
  function PolicyIndex(hand: seq<Card>, sel: Option<Attr>): (i: nat)
    requires |hand| > 0
    ensures i < |hand|
    ensures (exists j :: 0 <= j < |hand| && Score(hand[j].stats, sel) > -1) ==> IsFirstMax(Scores(hand, sel), i)
    ensures (forall j :: 0 <= j < |hand| ==> Score(hand[j].stats, sel) <= -1) ==> i == 0
  {
    var vs := Scores(hand, sel);
    assert (exists j :: 0 <= j < |hand| && Score(hand[j].stats, sel) > -1) ==> exists j :: 0 <= j < |vs| && vs[j] > -1;
    Scan(vs, 0, -1, 0)
  }

  /** Predicates on the policy's inputs. */
  predicate HandNonNegative(hand: seq<Card>) {
    forall c :: c in hand ==> c.stats.fe >= 0 && c.stats.coragem >= 0 && c.stats.influencia >= 0
  }

  /** With stats that are not negative the opponent always plays a first
      maximal card. */
  lemma PolicyPicksFirstMax(hand: seq<Card>, sel: Option<Attr>)
    requires |hand| > 0 && HandNonNegative(hand)
    ensures IsFirstMax(Scores(hand, sel), PolicyIndex(hand, sel))
  {
  }

  /** The opponent's move. With cards in hand it picks PolicyIndex, then
      overwrites the selected attribute with that card's best attribute
      before playing it, so a duel that follows compares the opponent's
      attribute, not the one the player chose. With an empty hand it clicks
      the first draw button on the page (which side's it is is an input)
      and plays the first opponent card if there is one, leaving the
      selected attribute as it was. */
  function OpponentPlay(s: State, firstDrawButton: Side, cat: Option<Catalog>): (r: State)
    ensures |s.hands.opponent| > 0 ==>
              var i := PolicyIndex(s.hands.opponent, s.selected);
              var c := s.hands.opponent[i];
              && r.hands.opponent == RemoveAt(s.hands.opponent, i)
              && r.hands.player == s.hands.player && r.decks == s.decks
              && (s.lastPlayed.player.None? ==>
                    && r.lastPlayed == s.lastPlayed.(opponent := Some(c))
                    && r.selected == Some(BestAttr(c.stats))
                    && r.turn == s.turn && r.life == s.life)
              && (s.lastPlayed.player.Some? ==>
                    && r.life == ApplyOutcome(s.life, DuelOutcome(s.lastPlayed.player.value.stats, c.stats, Some(BestAttr(c.stats))))
                    && r.lastPlayed == PerSide(None, None)
                    && (r.turn == Ended <==> GameOver(r.life))
                    && (r.turn != Ended ==> r.turn == PlayerTurn && r.selected == None)
                    && (r.turn == Ended ==> r.selected == Some(BestAttr(c.stats))))
    ensures |s.hands.opponent| == 0 && firstDrawButton == Player ==>
              && r == DrawClick(s, Player, cat)
              && r.hands.opponent == []
              && r.lastPlayed == s.lastPlayed && r.selected == s.selected
              && r.turn == s.turn && r.life == s.life
    ensures |s.hands.opponent| == 0 && firstDrawButton == Opponent && cat.Some? && s.decks.opponent != [] ==>
              var c := NewCard(cat.value, s.decks.opponent[|s.decks.opponent| - 1], Opponent);
              && r.hands.opponent == []
              && r.decks.opponent == s.decks.opponent[..|s.decks.opponent| - 1]
              && r.hands.player == s.hands.player && r.decks.player == s.decks.player
              && (s.lastPlayed.player.None? ==>
                    && r.lastPlayed == s.lastPlayed.(opponent := Some(c))
                    && r.selected == s.selected
                    && r.turn == s.turn && r.life == s.life)
              && (s.lastPlayed.player.Some? ==>
                    && r.life == ApplyOutcome(s.life, DuelOutcome(s.lastPlayed.player.value.stats, c.stats, s.selected))
                    && r.lastPlayed == PerSide(None, None)
                    && (r.turn == Ended <==> GameOver(r.life))
                    && (r.turn != Ended ==> r.turn == PlayerTurn && r.selected == None)
                    && (r.turn == Ended ==> r.selected == s.selected))
    ensures |s.hands.opponent| == 0 && firstDrawButton == Opponent && (cat.None? || s.decks.opponent == []) ==> r == s
    ensures LifeStep(s.life, r.life)
    ensures DecksShrink(s, r)
    ensures |s.hands.player| <= HandLimit ==> |r.hands.player| <= HandLimit
    ensures HandsOwned(s) ==> HandsOwned(r)
  {
    var hand := s.hands.opponent;
    if |hand| > 0 then
      var i := PolicyIndex(hand, s.selected);
      var c := hand[i];
      var s1 := s.(selected := Some(BestAttr(c.stats)), hands := s.hands.(opponent := RemoveAt(hand, i)));
      RemoveKeepsOwner(hand, i, Opponent);
      PlayCardToSlot(s1, c, Opponent)
    else
      var s1 := DrawClick(s, firstDrawButton, cat);
      var h := s1.hands.opponent;
      if |h| > 0 then
        assert forall x :: x in h[1..] ==> x in h;
        PlayCardToSlot(s1.(hands := s1.hands.(opponent := h[1..])), h[0], Opponent)
      else s1
  }

  /** With cards in the opponent's hand, the attribute the player chose
      matters only through the card it makes the opponent pick: two choices
      that lead to the same card lead to the same result. */
  lemma PlayerAttributeOnlyPicksCard(s: State, a: Attr, b: Attr, firstDrawButton: Side, cat: Option<Catalog>)
    requires |s.hands.opponent| > 0
    requires PolicyIndex(s.hands.opponent, Some(a)) == PolicyIndex(s.hands.opponent, Some(b))
    ensures OpponentPlay(s.(selected := Some(a)), firstDrawButton, cat)
            == OpponentPlay(s.(selected := Some(b)), firstDrawButton, cat)
  {
  }
}

=== FILE: stats.dfy ===
/** Card statistics: the canonical three-attribute record every card carries,
    the normalization of a catalog `stats` object into it, and the two ways a
    duel scores a card (one attribute, or the stat sum). */
module Attributes {
  import opened Wrappers

  /** The three attributes a duel can compare, listed in the order the
      opponent prefers when two of its stats are equal. */
  datatype Attr = Fe | Coragem | Influencia

  datatype Stats = Stats(fe: int, coragem: int, influencia: int)

  /** A catalog `stats` object: field name to number. An absent key is
      JavaScript's `undefined`. */
  type RawStats = map<string, int>

  /** The value given to any stat that is missing or zero. */
  const DefaultStat: int := 40

  function Value(st: Stats, a: Attr): int {
    match a
    case Fe => st.fe
    case Coragem => st.coragem
    case Influencia => st.influencia
  }

  function Total(st: Stats): int {
    st.fe + st.coragem + st.influencia
  }

  /** What a duel compares: the selected attribute, or the sum of all three
      stats when no attribute is selected. A stat is never absent from a
      normalized record, so the source's `|| 0` fallback changes nothing. */
  function Score(st: Stats, sel: Option<Attr>): int {
    match sel
    case Some(a) => Value(st, a)
    case None => Total(st)
  }

  /** Position of an attribute in the tie-break order. */
  function Rank(a: Attr): nat {
    match a
    case Fe => 0
    case Coragem => 1
    case Influencia => 2
  }

  /** The field name of an attribute in the current catalog schema. */
  function Key(a: Attr): string {
    match a
    case Fe => "fe"
    case Coragem => "coragem"
    case Influencia => "influencia"
  }

  /** The field name the legacy catalog schema used for the same attribute. */
  function LegacyKey(a: Attr): string {
    match a
    case Fe => "magia"
    case Coragem => "forca"
    case Influencia => "agilidade"
  }

  /** `s.k` is truthy: the field is present and not zero. */
  predicate Truthy(s: RawStats, k: string) {
    k in s && s[k] != 0
  }

  /** JavaScript's `s.k || d`. */
  function OrElse(s: RawStats, k: string, d: int): int {
    if Truthy(s, k) then s[k] else d
  }

  /** The stats object already uses at least one current field name. */
  predicate HasCurrentKeys(s: RawStats) {
    "fe" in s || "coragem" in s || "influencia" in s
  }

  /** Canonical form of a catalog stats object. With no object every stat
      is 40. When any current field name is present, only current names are
      read; otherwise the legacy names are read (the current name as a
      second choice can never be present there). A falsy field becomes 40. */
  function Normalize(s: Option<RawStats>): (r: Stats)
    ensures forall a :: Value(r, a) != 0
    ensures s.None? ==> r == Stats(DefaultStat, DefaultStat, DefaultStat)
    ensures s.Some? && HasCurrentKeys(s.value) ==>
              forall a :: Value(r, a) == OrElse(s.value, Key(a), DefaultStat)
    ensures s.Some? && !HasCurrentKeys(s.value) ==>
              forall a :: Value(r, a) == OrElse(s.value, LegacyKey(a), DefaultStat)
  {
    match s
    case None => Stats(DefaultStat, DefaultStat, DefaultStat)
    case Some(m) =>
      if HasCurrentKeys(m) then
        Stats(OrElse(m, "fe", DefaultStat), OrElse(m, "coragem", DefaultStat), OrElse(m, "influencia", DefaultStat))
      else
        Stats(OrElse(m, "magia", OrElse(m, "fe", DefaultStat)),
              OrElse(m, "forca", OrElse(m, "coragem", DefaultStat)),
              OrElse(m, "agilidade", OrElse(m, "influencia", DefaultStat)))
  }

  /** The canonical record written back as a current-schema stats object,
      as the card's `dataset.stats` holds it. */
  function Canonical(st: Stats): RawStats {
    map["fe" := st.fe, "coragem" := st.coragem, "influencia" := st.influencia]
  }

  /** A legacy-only stats object with each legacy field renamed to its
      current name. */
  function Renamed(m: RawStats): RawStats {
    map k | k in {Key(Fe), Key(Coragem), Key(Influencia)} && LegacyKey(AttrOf(k)) in m :: m[LegacyKey(AttrOf(k))]
  }

  /** The attribute a current field name stands for. */
  function AttrOf(k: string): Attr {
    if k == Key(Fe) then Fe else if k == Key(Coragem) then Coragem else Influencia
  }

  /** Normalizing an already-normalized card changes nothing. */
  lemma NormalizeIdempotent(s: Option<RawStats>)
    ensures Normalize(Some(Canonical(Normalize(s)))) == Normalize(s)
  {
  }

  /** The legacy schema is the current schema under the renaming
      magia to fe, forca to coragem, agilidade to influencia. */
  lemma LegacyKeysRenamed(m: RawStats)
    requires !HasCurrentKeys(m)
    ensures Normalize(Some(m)) == Normalize(Some(Renamed(m)))
  {
    var r := Renamed(m);
    forall a | true
      ensures Key(a) in r <==> LegacyKey(a) in m
      ensures Key(a) in r ==> r[Key(a)] == m[LegacyKey(a)]
    {
      assert AttrOf(Key(a)) == a;
    }
  }

  /** Once one current field name is present, legacy fields are ignored:
      `{fe: 50, forca: 80}` gives coragem 40, not 80. */
  lemma CurrentKeysShadowLegacy(m: RawStats, legacy: RawStats)
    requires HasCurrentKeys(m)
    requires forall k :: k in legacy ==> k !in {"fe", "coragem", "influencia"}
    ensures Normalize(Some(m + legacy)) == Normalize(Some(m))
  {
  }

  /** Catalog stats in [0, 100] normalize into [1, 100]. */
  lemma NormalizeRange(s: Option<RawStats>)
    requires s.Some? ==> forall k :: k in s.value ==> 0 <= s.value[k] <= 100
    ensures forall a :: 1 <= Value(Normalize(s), a) <= 100
  {
  }

  /** The attribute the opponent declares for a card: the first entry of the
      three stats sorted by descending value with a stable sort, i.e. the
      largest stat, ties going to the earlier of fe, coragem, influencia. */
  function BestAttr(st: Stats): (a: Attr)
    ensures forall b :: Value(st, b) <= Value(st, a)
    ensures forall b :: Value(st, b) == Value(st, a) ==> Rank(a) <= Rank(b)
  {
    if st.fe >= st.coragem && st.fe >= st.influencia then Fe
    else if st.coragem >= st.influencia then Coragem
    else Influencia
  }
}

=== FILE: wrappers.dfy ===
/** The optional value the game code writes as `null` (no card drawn, no card
    played, no attribute selected). */
module Wrappers {

  datatype Option<+T> = None | Some(value: T)
}
